=== FILE: README.md ===
# Word importer core, in Dafny

`scripts/word_importer.py` is the tool that adds words to the flashcard
catalogue (`data/words.json`). This project models its pure core and proves
properties of that model:

- `slugify`, which turns an English word into the word id and the stem of
  the image and audio file names (`slug.dfy`);
- the import queue: the row normalisation inside `load_import_rows` and the
  search `find_next_missing_index` for the next CSV row that is not saved yet
  (`import_rows.dfy`);
- the parsing of the comma-separated tags field (`tags.dfy`);
- the save step, which replaces any entry with the same id by the new entry
  at the end of the list (`word_store.dfy`);
- the input guard of `translate_en_to_he` and the clean-up of the
  translation model's reply (`translation.dfy`).

`text.dfy` holds the Python string operations these rely on:
- `str.strip` with the full `str.isspace` set, and `strip(chars)`;
- `str.lower` on ASCII letters;
- `split` on one separator, and `split(sep, 1)`;
- `splitlines` with its full set of line boundaries, where `\r\n` counts as
  one boundary.

`wrappers.dfy` holds `Option` for Python's `None`-or-value and `Result` for
the save step's refusal.

Each Python function becomes a pure Dafny function. Its contract states what
the result means. The lemmas connect each operation to a second, independent
description of its result:

- `slugify`: a reference definition (the alphanumeric runs joined by
  hyphens), idempotence, and preservation of letters and digits;
- row loading: written as a filter-map of the per-record step over the
  records; lemmas give its law over concatenation, where each row comes
  from, and which records are dropped;
- tags: the tag a single comma-free field gives, and a round trip through
  `","`-joining;
- the upsert: counts, order and idempotence;
- reply clean-up: the exact result on well-shaped replies, quoted ones
  included, the slice of the reply it comes from, and the exact shape of
  what quote stripping removes.

The HTTP request to the translation service is not modelled. Its outcome is
the parameter `Reply`: a failure (network error, HTTP error status, or a body
that is not JSON), or the decoded `response` field read as a string. Decoded
bodies that make the source raise are not among these outcomes (see
"## Left out").

## Model

| member | source | states |
|---|---|---|
| Slug.Slugify | scripts/word_importer.py:72-77 | the id uses only `a`-`z`, `0`-`9` and `-`; it never starts or ends with `-`; it never has two adjacent `-`; empty input gives `""` |
| Slug.Collapse | scripts/word_importer.py:76 | the substitution's output uses only `a`-`z`, `0`-`9` and `-`, has no two adjacent `-`, and does not start with `-` when a run of separators was already open |
| Slug.CollapseShape | scripts/word_importer.py:76 | the substitution yields the `[a-z0-9]` runs joined by single hyphens, with only hyphens before and after them |
| Slug.SlugifyIsJoinedRuns | scripts/word_importer.py:74-77 | the id equals the maximal runs of `[a-z0-9]` in the lowered word, joined by single hyphens |
| Slug.SlugifyIdempotent | scripts/word_importer.py:72-77 | applying `slugify` to an id gives the same id |
| Slug.SlugifyKeepsAlnums | scripts/word_importer.py:76-77 | the letters and digits of the id are those of the lowered word, in order; only separators change |
| Slug.SlugifyEmptyIff | scripts/word_importer.py:72-77 | the id is empty exactly when the lowered word has no ASCII letter or digit, which is when saving is refused |
| ImportRows.NormalizeRow | scripts/word_importer.py:102-111 | a record is skipped exactly when its stripped English cell is empty; otherwise the row has the stripped cells, the image query falls back to the English word, and the id is the slug of the English word |
| ImportRows.LoadWellFormed | scripts/word_importer.py:98-111 | every loaded row has a non-empty stripped English word and image query, a stripped Hebrew word, and the slug of its English word as id |
| ImportRows.LoadImportRows | scripts/word_importer.py:98-111 | never more rows than records |
| ImportRows.FilterMapConcat | scripts/word_importer.py:101-111 | for the loop with any step, here `NormalizeRow`: loading the records of `a + b` gives the rows of `a` followed by those of `b`, so the file order is kept |
| ImportRows.FilterMapSource | scripts/word_importer.py:101-111 | for the loop with any step, here `NormalizeRow`: every loaded row is the normalisation of some input record |
| ImportRows.FilterMapComplete | scripts/word_importer.py:101-111 | for the loop with any step, here `NormalizeRow`: every record the normalisation keeps (a non-blank English cell) produces a row |
| ImportRows.FilterMapLength | scripts/word_importer.py:101-111 | for the loop with any step, here `NormalizeRow`: the number of rows is the number of records minus the skipped ones, those with a blank English cell |
| ImportRows.ScanFrom | scripts/word_importer.py:119-125 | the loop from index `i` returns the first qualifying index at or after `i`, or None when none from `i` on qualifies |
| ImportRows.FindNextMissingIndex | scripts/word_importer.py:115-125 | no rows gives None; a result lies in `[max(start,0), len(rows))`, has a non-empty id not among the saved ids, and is the smallest such index; None exactly when no index from `max(start,0)` on qualifies |
| ImportRows.FindNextAdvances | scripts/word_importer.py:115-125 | once the proposed row's id is saved, the search from the same start proposes nothing at or before that row |
| Tags.ParseTags | scripts/word_importer.py:607 | every parsed tag is non-empty, has no surrounding whitespace and holds no comma |
| Tags.ParseTagsOfBlank | scripts/word_importer.py:607 | a blank tags field, the default empty one included, gives no tags |
| Tags.ParseTagsOfPiece | scripts/word_importer.py:607 | a field with no comma gives its stripped text as the only tag, or no tag when that is empty; with `ParseTagsConcat` this fixes the tags of any field, piece by piece |
| Tags.ParseTagsConcat | scripts/word_importer.py:607 | parsing `a + "," + b` gives the tags of `a` followed by those of `b`, so the left-to-right order is kept |
| Tags.KeepNonBlankConcat | scripts/word_importer.py:607 | the comprehension that keeps non-blank stripped pieces distributes over concatenation |
| Tags.ParseTagsRoundTrip | scripts/word_importer.py:607 | joining valid tags with `,` and parsing the field again gives the same tags |
| Text.Split | scripts/word_importer.py:607 | `split(",")` gives at least one piece; no piece holds the separator; joining the pieces with the separator restores the text |
| Text.SplitJoin | scripts/word_importer.py:607 | splitting pieces that hold no separator, once joined with it, gives the same pieces back |
| WordStore.RemoveId | scripts/word_importer.py:620 | the list comprehension keeps exactly the entries whose id differs |
| WordStore.Upsert | scripts/word_importer.py:620-621 | the new entry is last; no other entry has its id; every old entry with another id is kept; nothing else appears |
| WordStore.UpsertCounts | scripts/word_importer.py:620-621 | exactly one entry has the new id; the list shrinks by the old entries with that id and grows by one |
| WordStore.UpsertKeepsOrder | scripts/word_importer.py:620-621 | the kept entries stay in their original relative order before the new entry |
| WordStore.UpsertKeepsUniqueIds | scripts/word_importer.py:620-621 | a catalogue with unique ids keeps unique ids |
| WordStore.UpsertIdempotent | scripts/word_importer.py:620-621 | saving the same entry twice gives the same catalogue as saving it once |
| WordStore.SaveWord | scripts/word_importer.py:576-621 | saving is refused exactly when the word's slug is empty; otherwise the last entry is the entry built from the form with the slug as id, no earlier entry has that id, and every old entry with another id is kept |
| WordStore.NewEntry | scripts/word_importer.py:607-618 | the entry has the given id, the stripped English and Hebrew words, the tags parsed from the tags field, the image path `assets/images/<id>.png`, and the form's audio path, distractor ids, difficulty and first-letter flag |
| WordStore.SaveWordWellFormed | scripts/word_importer.py:576-621 | after a save, ids stay unique; the new entry's id is a non-empty slug and is the slug of the stored (stripped) English word; its tags are valid tags |
| Translation.TranslateEnToHe | scripts/word_importer.py:220-261 | a blank word gives None; a failed request gives None; a non-blank word with an answered request gives the cleaned reply; a result is non-empty and neither starts nor ends with `'` |
| Translation.TranslationIsOneLine | scripts/word_importer.py:246-261 | a result comes only from a non-blank word and an answered request, and it holds no line break |
| Translation.CleanReply | scripts/word_importer.py:246-261 | a cleaned reply is non-empty and neither starts nor ends with `'` |
| Translation.DropOutputPrefix | scripts/word_importer.py:255-256 | a line whose lowered form starts with `output:` becomes the stripped text after its first seven characters (the first colon is at index 6); any other line is unchanged |
| Translation.StripQuotes | scripts/word_importer.py:257 | the result is no longer than the input and neither starts nor ends with `'`; text with no quote at either end is unchanged |
| Translation.StripQuotesShape | scripts/word_importer.py:257 | the input is the result with a run of `'` on each side and, outside those, a run of `"` on each side; what the `"` pass leaves neither starts nor ends with `"`, so every `"` at either end goes before the `'` pass; only quotes are removed, and only at the two ends |
| Translation.StripQuotesOfRuns | scripts/word_importer.py:257 | for runs of `"` outside runs of `'` around a core, where the core has no `'` at its ends and the part inside the `"` runs has no `"` at its ends, the result is exactly the core, whatever the runs' lengths and whether or not the sides match; with `StripQuotesShape` this fixes the result on every input |
| Translation.StripQuotesOfQuoted | scripts/word_importer.py:257 | text inside a pair of `"` or a pair of `'`, with no quote at its own ends, comes back exactly, without the pair |
| Translation.FirstNonBlankLine | scripts/word_importer.py:250-254 | the line taken is non-empty and stripped; None exactly when every line is blank |
| Translation.FirstNonBlankLineSource | scripts/word_importer.py:250-254 | the line taken is the stripped form of some line, and every earlier line is blank, so it is the first non-blank one |
| Translation.CleanReplyWithinFirstLine | scripts/word_importer.py:246-261 | the result is a slice of the first non-blank line of the reply; when that line starts with `output:` in any case, the slice lies after the prefix; the result holds no line break |
| Translation.CleanReplyOfPrefixedAnswer | scripts/word_importer.py:246-261 | a reply made of blank lines, `output:` in any case, spaces, a clean word, then nothing or a further line, cleans to exactly that word |
| Translation.CleanReplyOfPlainAnswer | scripts/word_importer.py:246-261 | a reply made of blank lines, a clean word without the prefix, then nothing or a further line, cleans to exactly that word |
| Translation.CleanReplyOfQuotedAnswer | scripts/word_importer.py:246-261 | a reply made of blank lines, a word in double or single quotes, then nothing or a further line, cleans to exactly the word without its quotes; an empty pair of quotes gives None |
| Translation.TranslateOfPrefixedAnswer | scripts/word_importer.py:222-261 | for a non-blank word, a reply of blank lines, `output:` in any case, spaces, a clean word and an optional further line translates to exactly that word |

## Left out

- The Streamlit page in `main` (scripts/word_importer.py:298-637): widgets, session state and messages are UI glue. Only the save step's id check, entry assembly and upsert are modelled.
- The HTTP calls to Pixabay, Ollama and LibreTranslate (scripts/word_importer.py:128-154, 220-245). They are network clients. The outcome of the Ollama call is the `Reply` parameter, and the prompt text is not modelled.
- gTTS audio synthesis and PIL image resizing (scripts/word_importer.py:157-189, 264-295). These are foreign libraries.
- Reading and writing `data/words.json` and the import CSV, creating directories, and loading `.env` (scripts/word_importer.py:42-50, 68-69, 80-96). This is I/O. The model starts from the records `csv.DictReader` yields and from the catalogue list.
- The CSV parser itself, including the byte-order mark handling of `utf-8-sig`. The records are inputs.
- scripts/libre_translate_demo.py is not part of this model. It is a debug command-line tool around one POST request.
- The flashcard scheduling and mastery engine. It is JavaScript and is not part of this model.
- WordStore.SaveWord: it models only the check that the id is non-empty (lines 576-578). The checks for a downloadable image URL and for generated audio (579-589), and the file writes (591-604), depend on session state and I/O. The audio path is taken as given; the image path is built from the id as `assets/images/<id>.png`.
- Slug.Slugify: `lower()` is modelled on ASCII letters only. Python also lowers other letters. Two of them map into `[a-z]`: KELVIN SIGN U+212A lowers to `k`, and U+0130 lowers to `i` followed by a combining dot. For words containing those two characters the model's id differs from the source's. The `output:` test is unaffected, because no non-ASCII character lowers to one of its letters.
- `st.error` messages on the failure paths are not modelled; the failure itself is.
- Translation.TranslateEnToHe: the uncaught exception of line 246 is not modelled. `(data.get("response") or "").strip()` lies outside the `try` of lines 234-245. It raises `AttributeError` when the decoded JSON is not an object, or when its `response` field is a truthy value that is not a string. `Reply` has no such outcome: an answered request always carries a string, so the model always returns a value.

=== FILE: import_rows.dfy ===
/**
  The CSV import queue of scripts/word_importer.py: `load_import_rows` turns
  the parsed records of the import CSV into normalised rows, and
  `find_next_missing_index` picks the next row whose word is not yet saved.
 */
module ImportRows {
  import opened Wrappers
  import opened Text
  import opened Slug

  /**
    One record as `csv.DictReader` yields it: a column the record lacks reads
    as None.
   */
  datatype RawRow = RawRow(english: Option<string>, hebrew: Option<string>, pixabaySearch: Option<string>)

  datatype ImportRow = ImportRow(english: string, hebrew: string, pixabayQuery: string, id: string)

  /** `(raw.get(column) or "").strip()` */
  function Cell(cell: Option<string>): string {
    match cell
    case None => ""
    case Some(text) => Strip(text)
  }

  /** What every row `load_import_rows` emits looks like. */
  predicate WellFormed(row: ImportRow) {
    && row.english != [] && EndsKept(row.english, IsSpace)
    && row.pixabayQuery != [] && EndsKept(row.pixabayQuery, IsSpace)
    && EndsKept(row.hebrew, IsSpace)
    && row.id == Slugify(row.english)
  }

  /** The loop body of `load_import_rows`: a blank English cell skips the record. */
  function NormalizeRow(raw: RawRow): (r: Option<ImportRow>)
    ensures r.None? <==> Cell(raw.english) == []
    ensures r.Some? ==> WellFormed(r.value)
    ensures r.Some? ==> r.value.english == Cell(raw.english) && r.value.hebrew == Cell(raw.hebrew)
    ensures r.Some? && Cell(raw.pixabaySearch) != [] ==> r.value.pixabayQuery == Cell(raw.pixabaySearch)
    ensures r.Some? && Cell(raw.pixabaySearch) == [] ==> r.value.pixabayQuery == r.value.english
  {
    var english := Cell(raw.english);
    var hebrew := Cell(raw.hebrew);
    var query := Cell(raw.pixabaySearch);
    if english == [] then None
    else
      Some(ImportRow(english, hebrew, if query != [] then query else english, Slugify(english)))
  }

  /** `load_import_rows` over the already-parsed records, in file order. */
  function LoadImportRows(raws: seq<RawRow>): (rows: seq<ImportRow>)
    ensures |rows| <= |raws|
  {
    FilterMap(NormalizeRow, raws)
  }

  /**
    The loop of `load_import_rows` for any per-record step `f`: each record
    contributes the row `f` makes of it, or nothing when `f` skips it.
   */
  function FilterMap<A, B>(f: A -> Option<B>, xs: seq<A>): (ys: seq<B>)
    ensures |ys| <= |xs|
  {
    if xs == [] then []
    else AsSeq(f(xs[0])) + FilterMap(f, xs[1..])
  }

  function AsSeq<B>(r: Option<B>): seq<B> {
    match r
    case None => []
    case Some(y) => [y]
  }

  /** Number of records the step skips. */
  function Skipped<A, B>(f: A -> Option<B>, xs: seq<A>): nat {
    if xs == [] then 0
    else (if f(xs[0]).None? then 1 else 0) + Skipped(f, xs[1..])
  }

  /**
    The loop is a homomorphism over concatenation: the rows of a file are
    the rows of its first part followed by the rows of its second part, so
    the file order is kept.
   */
  lemma {:induction false} FilterMapConcat<A, B>(f: A -> Option<B>, a: seq<A>, b: seq<A>)
    ensures FilterMap(f, a + b) == FilterMap(f, a) + FilterMap(f, b)
    decreases |a|
  {
    if a == [] {
      assert a + b == b;
    } else {
      assert (a + b)[0] == a[0];
      assert (a + b)[1..] == a[1..] + b;
      FilterMapConcat(f, a[1..], b);
    }
  }

  /** Every emitted row is the step's row for some record. */
  lemma {:induction false} FilterMapSource<A, B>(f: A -> Option<B>, xs: seq<A>, y: B) returns (i: nat)
    requires y in FilterMap(f, xs)
    ensures i < |xs| && f(xs[i]) == Some(y)
    decreases |xs|
  {
    if y in AsSeq(f(xs[0])) {
      i := 0;
    } else {
      var j := FilterMapSource(f, xs[1..], y);
      i := j + 1;
      assert xs[1..][j] == xs[i];
    }
  }

  /** Every record the step does not skip is emitted. */
  lemma {:induction false} FilterMapComplete<A, B>(f: A -> Option<B>, xs: seq<A>, i: nat)
    requires i < |xs| && f(xs[i]).Some?
    ensures f(xs[i]).value in FilterMap(f, xs)
    decreases i
  {
    var head := AsSeq(f(xs[0]));
    assert FilterMap(f, xs) == head + FilterMap(f, xs[1..]);
    if i == 0 {
      assert head == [f(xs[i]).value];
    } else {
      assert xs[1..][i - 1] == xs[i];
      FilterMapComplete(f, xs[1..], i - 1);
    }
  }

  /** Only the skipped records are dropped. */
  lemma {:induction false} FilterMapLength<A, B>(f: A -> Option<B>, xs: seq<A>)
    ensures |FilterMap(f, xs)| == |xs| - Skipped(f, xs)
    decreases |xs|
  {
    if xs != [] {
      FilterMapLength(f, xs[1..]);
    }
  }

  /** Every emitted row has a non-blank English word, a non-blank image query and the slug of the word as id. */
  lemma {:induction false} LoadWellFormed(raws: seq<RawRow>, row: ImportRow)
    requires row in LoadImportRows(raws)
    ensures WellFormed(row)
  {
    var i := FilterMapSource(NormalizeRow, raws, row);
  }

  /** The row still needs importing: it has an id and no saved word uses it. */
  predicate IsMissing(rows: seq<ImportRow>, i: int, existingIds: seq<string>)
    requires 0 <= i < |rows|
  {
    rows[i].id != [] && rows[i].id !in existingIds
  }

  function Max(a: int, b: int): int {
    if a < b then b else a
  }

  /** The `for idx in range(start_idx, len(rows))` loop from index `i` on. */
  function ScanFrom(rows: seq<ImportRow>, i: nat, existingIds: seq<string>): (r: Option<nat>)
    ensures r.Some? ==> i <= r.value < |rows| && IsMissing(rows, r.value, existingIds)
    ensures r.Some? ==> forall j :: i <= j < r.value ==> !IsMissing(rows, j, existingIds)
    ensures r.None? ==> forall j :: i <= j < |rows| ==> !IsMissing(rows, j, existingIds)
    decreases |rows| - i
  {
    if i >= |rows| then None
    else if IsMissing(rows, i, existingIds) then Some(i)
    else ScanFrom(rows, i + 1, existingIds)
  }

  /**
    `find_next_missing_index`: the first row at or after the (clamped) start
    whose id is non-empty and not among the saved ids.
   */
  function FindNextMissingIndex(rows: seq<ImportRow>, start: int, existingIds: seq<string>): (r: Option<nat>)
    ensures rows == [] ==> r.None?
    ensures r.Some? ==> Max(start, 0) <= r.value < |rows| && IsMissing(rows, r.value, existingIds)
    ensures r.Some? ==> forall j :: Max(start, 0) <= j < r.value ==> !IsMissing(rows, j, existingIds)
    ensures r.None? <==> forall j :: Max(start, 0) <= j < |rows| ==> !IsMissing(rows, j, existingIds)
  {
    if rows == [] then None
    else ScanFrom(rows, Max(start, 0), existingIds)
  }

  /**
    Saving the proposed word moves the queue on: once its id is among the
    saved ids, the search from the same start never proposes that row, nor
    any earlier one, again.
   */
  lemma FindNextAdvances(rows: seq<ImportRow>, start: int, existingIds: seq<string>)
    requires FindNextMissingIndex(rows, start, existingIds).Some?
    ensures var k := FindNextMissingIndex(rows, start, existingIds).value;
      var next := FindNextMissingIndex(rows, start, existingIds + [rows[k].id]);
      next.None? || next.value > k
  {
    var k := FindNextMissingIndex(rows, start, existingIds).value;
    var ids := existingIds + [rows[k].id];
    var next := FindNextMissingIndex(rows, start, ids);
    if next.Some? {
      assert rows[k].id in ids;
      forall i | Max(start, 0) <= i < k
        ensures !IsMissing(rows, i, ids)
      {
        assert !IsMissing(rows, i, existingIds);
      }
    }
  }
}

=== FILE: slug.dfy ===
/**
  `slugify` (scripts/word_importer.py): the word id and file-name stem derived
  from an English word. The text is stripped and lowered, every maximal run
  of characters outside `[a-z0-9]` becomes a single `-`, and `-` is trimmed
  from both ends.
 */
module Slug {
  import opened Text

  /** The characters `[a-z0-9]` the substitution keeps. */
  predicate IsSlugChar(c: char) {
    ('a' <= c <= 'z') || ('0' <= c <= '9')
  }

  predicate InSlugAlphabet(s: string) {
    forall i :: 0 <= i < |s| ==> IsSlugChar(s[i]) || s[i] == '-'
  }

  predicate NoDoubleHyphen(s: string) {
    forall i :: 0 <= i < |s| - 1 ==> !(s[i] == '-' && s[i + 1] == '-')
  }

  /** What a word id looks like: `[a-z0-9]` words joined by single hyphens. */
  predicate IsSlug(s: string) {
    InSlugAlphabet(s) && NoDoubleHyphen(s) && EndsKept(s, IsHyphen)
  }

  /**
    `re.sub("[^a-z0-9]+", "-", s)`, scanning left to right; `inRun` says the
    character before `s` was already part of a replaced run.
   */
  function Collapse(s: string, inRun: bool): (r: string)
    ensures InSlugAlphabet(r)
    ensures NoDoubleHyphen(r)
    ensures inRun && r != [] ==> r[0] != '-'
  {
    if s == [] then []
    else if IsSlugChar(s[0]) then [s[0]] + Collapse(s[1..], false)
    else if inRun then Collapse(s[1..], true)
    else "-" + Collapse(s[1..], true)
  }

  function Slugify(value: string): (r: string)
    ensures IsSlug(r)
    ensures value == [] ==> r == []
  {
    if value == [] then []
    else
      var collapsed := Collapse(Lower(Strip(value)), false);
      TrimHyphensIsSlug(collapsed);
      Trim(collapsed, IsHyphen)
  }

  /** Trimming the hyphens off substituted text leaves a slug. */
  lemma TrimHyphensIsSlug(s: string)
    requires InSlugAlphabet(s) && NoDoubleHyphen(s)
    ensures IsSlug(Trim(s, IsHyphen))
  {
    var head, tail := TrimSplit(s, IsHyphen);
    var r := Trim(s, IsHyphen);
    assert forall i :: 0 <= i < |r| ==> r[i] == s[|head| + i];
  }

  /** The `[a-z0-9]` characters of `s`, in order. */
  function Alnums(s: string): string {
    if s == [] then []
    else (if IsSlugChar(s[0]) then [s[0]] else []) + Alnums(s[1..])
  }

  lemma {:induction false} AlnumsConcat(a: string, b: string)
    ensures Alnums(a + b) == Alnums(a) + Alnums(b)
    decreases |a|
  {
    if a == [] {
      assert a + b == b;
    } else {
      assert (a + b)[1..] == a[1..] + b;
      AlnumsConcat(a[1..], b);
    }
  }

  lemma {:induction false} AlnumsOfNone(s: string)
    requires forall i :: 0 <= i < |s| ==> !IsSlugChar(s[i])
    ensures Alnums(s) == []
    decreases |s|
  {
    if s != [] {
      AlnumsOfNone(s[1..]);
    }
  }

  lemma {:induction false} CollapseKeepsAlnums(s: string, inRun: bool)
    ensures Alnums(Collapse(s, inRun)) == Alnums(s)
    decreases |s|
  {
    if s != [] {
      CollapseKeepsAlnums(s[1..], false);
      CollapseKeepsAlnums(s[1..], true);
      var c := s[0];
      if IsSlugChar(c) {
        var rest := Collapse(s[1..], false);
        assert ([c] + rest)[1..] == rest;
      } else if !inRun {
        var rest := Collapse(s[1..], true);
        assert ("-" + rest)[1..] == rest;
      }
    }
  }

  /** Lowering a run of whitespace leaves no `[a-z0-9]` character. */
  lemma AlnumsOfLoweredSpace(s: string)
    requires AllDropped(s, IsSpace)
    ensures Alnums(Lower(s)) == []
  {
    AlnumsOfNone(Lower(s));
  }

  lemma AlnumsOfThree(a: string, r: string, b: string)
    ensures Alnums(a + r + b) == Alnums(a) + Alnums(r) + Alnums(b)
  {
    AlnumsConcat(a + r, b);
    AlnumsConcat(a, r);
  }

  /** Stripping removes only whitespace, which holds no letter or digit. */
  lemma StripKeepsAlnums(value: string)
    ensures Alnums(Lower(Strip(value))) == Alnums(Lower(value))
  {
    var stripped := Strip(value);
    var head, tail := TrimSplit(value, IsSpace);
    LowerOfThree(head, stripped, tail);
    AlnumsOfThree(Lower(head), Lower(stripped), Lower(tail));
    AlnumsOfLoweredSpace(head);
    AlnumsOfLoweredSpace(tail);
  }

  lemma LowerOfThree(a: string, r: string, b: string)
    ensures Lower(a + r + b) == Lower(a) + Lower(r) + Lower(b)
  {
    LowerConcat(a + r, b);
    LowerConcat(a, r);
  }

  /** Trimming hyphens removes no letter or digit. */
  lemma TrimHyphensKeepsAlnums(s: string)
    ensures Alnums(Trim(s, IsHyphen)) == Alnums(s)
  {
    var r := Trim(s, IsHyphen);
    var front, back := TrimSplit(s, IsHyphen);
    AlnumsOfThree(front, r, back);
    AlnumsOfNone(front);
    AlnumsOfNone(back);
  }

  /**
    The slug keeps exactly the letters and digits of the lowered word, in
    order: only separators are rewritten, nothing alphanumeric is lost,
    reordered or invented.
   */
  lemma SlugifyKeepsAlnums(value: string)
    ensures Alnums(Slugify(value)) == Alnums(Lower(value))
  {
    if value != [] {
      StripKeepsAlnums(value);
      CollapseKeepsAlnums(Lower(Strip(value)), false);
      TrimHyphensKeepsAlnums(Collapse(Lower(Strip(value)), false));
    }
  }

  /** A non-empty slug starts with a letter or digit, so its Alnums are non-empty. */
  lemma SlugHasAlnum(t: string)
    requires IsSlug(t) && t != []
    ensures Alnums(t) != []
  {
    assert IsSlugChar(t[0]);
    assert Alnums(t) == [t[0]] + Alnums(t[1..]);
  }

  /**
    The id is empty exactly when the word has no ASCII letter or digit; this
    is the case the importer reports as "word id could not be derived".
   */
  lemma SlugifyEmptyIff(value: string)
    ensures Slugify(value) == [] <==> Alnums(Lower(value)) == []
  {
    SlugifyKeepsAlnums(value);
    if Slugify(value) != [] {
      SlugHasAlnum(Slugify(value));
    }
  }

  /** A string that is already a slug passes the substitution unchanged. */
  lemma {:induction false} CollapseOfSlugText(t: string, inRun: bool)
    requires InSlugAlphabet(t) && NoDoubleHyphen(t)
    requires inRun && t != [] ==> t[0] != '-'
    ensures Collapse(t, inRun) == t
    decreases |t|
  {
    if t != [] {
      if IsSlugChar(t[0]) {
        CollapseOfSlugText(t[1..], false);
      } else {
        CollapseOfSlugText(t[1..], true);
      }
    }
  }

  lemma LowerOfSlugText(t: string)
    requires InSlugAlphabet(t)
    ensures Lower(t) == t
  {
  }

  /** A slug has no surrounding whitespace. */
  lemma StripOfSlug(t: string)
    requires IsSlug(t) && t != []
    ensures Strip(t) == t
  {
    assert !IsSpace(t[0]) && !IsSpace(t[|t| - 1]);
    TrimOfKept(t, IsSpace);
  }

  /** Slugifying a slug changes nothing: word ids are fixed points. */
  lemma SlugifyIdempotent(value: string)
    ensures Slugify(Slugify(value)) == Slugify(value)
  {
    var t := Slugify(value);
    if t != [] {
      StripOfSlug(t);
      LowerOfSlugText(t);
      CollapseOfSlugText(t, false);
      TrimOfKept(t, IsHyphen);
    }
  }

  /** Length of the run of `[a-z0-9]` characters that starts `s`. */
  function RunLength(s: string): (n: nat)
    ensures n <= |s|
    ensures forall i :: 0 <= i < n ==> IsSlugChar(s[i])
    ensures n < |s| ==> !IsSlugChar(s[n])
  {
    if s != [] && IsSlugChar(s[0]) then 1 + RunLength(s[1..]) else 0
  }

  /** The maximal runs of `[a-z0-9]` characters of `s`, in order. */
  function Runs(s: string): (ws: seq<string>)
    decreases |s|
  {
    if s == [] then []
    else if !IsSlugChar(s[0]) then Runs(s[1..])
    else
      var n := RunLength(s);
      [s[..n]] + Runs(s[n..])
  }

  /** `"-".join(words)` */
  function HyphenJoin(ws: seq<string>): string {
    if ws == [] then []
    else if |ws| == 1 then ws[0]
    else ws[0] + "-" + HyphenJoin(ws[1..])
  }

  /** A run is a non-empty string of `[a-z0-9]` characters. */
  predicate IsRun(w: string) {
    w != [] && forall i :: 0 <= i < |w| ==> IsSlugChar(w[i])
  }

  lemma {:induction false} RunsAreRuns(s: string)
    ensures forall i :: 0 <= i < |Runs(s)| ==> IsRun(Runs(s)[i])
    decreases |s|
  {
    if s != [] {
      if !IsSlugChar(s[0]) {
        RunsAreRuns(s[1..]);
      } else {
        RunsAreRuns(s[RunLength(s)..]);
      }
    }
  }

  /** Joining runs gives non-empty text whose ends are not hyphens. */
  lemma {:induction false} HyphenJoinEnds(ws: seq<string>)
    requires forall i :: 0 <= i < |ws| ==> IsRun(ws[i])
    ensures EndsKept(HyphenJoin(ws), IsHyphen)
    ensures ws != [] ==> HyphenJoin(ws) != []
    decreases |ws|
  {
    if |ws| > 1 {
      HyphenJoinEnds(ws[1..]);
      var rest := HyphenJoin(ws[1..]);
      assert HyphenJoin(ws) == ws[0] + ("-" + rest);
      assert HyphenJoin(ws)[0] == ws[0][0];
      assert HyphenJoin(ws)[|HyphenJoin(ws)| - 1] == rest[|rest| - 1];
    }
  }

  /**
    The substitution produces the hyphen-joined runs, with hyphens only
    before and after them (none before when a run was already open).
   */
  lemma {:induction false} CollapseShape(x: string, inRun: bool) returns (lead: string, trail: string)
    ensures Collapse(x, inRun) == lead + HyphenJoin(Runs(x)) + trail
    ensures AllDropped(lead, IsHyphen) && AllDropped(trail, IsHyphen)
    ensures inRun ==> lead == []
    decreases |x|, 1
  {
    if x == [] {
      lead, trail := [], [];
    } else if !IsSlugChar(x[0]) {
      lead, trail := CollapseShapeSeparator(x, inRun);
    } else {
      lead, trail := CollapseShapeRun(x, inRun);
    }
  }

  lemma {:induction false} CollapseShapeSeparator(x: string, inRun: bool) returns (lead: string, trail: string)
    requires x != [] && !IsSlugChar(x[0])
    ensures Collapse(x, inRun) == lead + HyphenJoin(Runs(x)) + trail
    ensures AllDropped(lead, IsHyphen) && AllDropped(trail, IsHyphen)
    ensures inRun ==> lead == []
    decreases |x|, 0
  {
    var l', t' := CollapseShape(x[1..], true);
    lead := if inRun then [] else "-";
    trail := t';
    assert Runs(x) == Runs(x[1..]);
    assert Collapse(x, inRun) == lead + Collapse(x[1..], true);
  }

  lemma {:induction false} CollapseShapeRun(x: string, inRun: bool) returns (lead: string, trail: string)
    requires x != [] && IsSlugChar(x[0])
    ensures Collapse(x, inRun) == lead + HyphenJoin(Runs(x)) + trail
    ensures AllDropped(lead, IsHyphen) && AllDropped(trail, IsHyphen)
    ensures lead == []
    decreases |x|, 0
  {
    var n := RunLength(x);
    var w, y := x[..n], x[n..];
    RunSplit(x, inRun);
    lead := [];
    if Runs(y) == [] {
      var l', t' := CollapseShape(y, false);
      trail := l' + t';
      assert Collapse(x, inRun) == w + (l' + t');
    } else {
      trail := CollapseShapeAfterRun(w, y);
    }
  }

  /** `x` is its first run `w` followed by the rest `y`. */
  lemma RunSplit(x: string, inRun: bool)
    requires x != [] && IsSlugChar(x[0])
    ensures Collapse(x, inRun) == x[..RunLength(x)] + Collapse(x[RunLength(x)..], false)
    ensures Runs(x) == [x[..RunLength(x)]] + Runs(x[RunLength(x)..])
    ensures Runs(x[RunLength(x)..]) == [] ==> HyphenJoin(Runs(x)) == x[..RunLength(x)]
  {
    var n := RunLength(x);
    assert x == x[..n] + x[n..];
    CollapseOfRun(x[..n], x[n..], inRun);
  }

  lemma {:induction false} CollapseShapeAfterRun(w: string, y: string) returns (trail: string)
    requires Runs(y) != []
    requires y == [] || !IsSlugChar(y[0])
    ensures w + Collapse(y, false) == HyphenJoin([w] + Runs(y)) + trail
    ensures AllDropped(trail, IsHyphen)
    decreases |y|, 0
  {
    assert y != [];
    assert Runs(y) == Runs(y[1..]);
    var l', t' := CollapseShape(y[1..], true);
    trail := t';
    assert Collapse(y, false) == "-" + Collapse(y[1..], true);
    assert HyphenJoin([w] + Runs(y)) == w + "-" + HyphenJoin(Runs(y));
  }

  /** A leading run of letters and digits passes through the substitution as is. */
  lemma {:induction false} CollapseOfRun(w: string, y: string, inRun: bool)
    requires forall i :: 0 <= i < |w| ==> IsSlugChar(w[i])
    requires w != []
    ensures Collapse(w + y, inRun) == w + Collapse(y, false)
    decreases |w|
  {
    assert (w + y)[0] == w[0];
    assert (w + y)[1..] == w[1..] + y;
    if |w| > 1 {
      CollapseOfRun(w[1..], y, false);
    } else {
      assert w[1..] + y == y;
    }
  }

  lemma {:induction false} RunsOfSeparators(a: string, y: string)
    requires forall i :: 0 <= i < |a| ==> !IsSlugChar(a[i])
    ensures Runs(a + y) == Runs(y)
    decreases |a|
  {
    if a == [] {
      assert a + y == y;
    } else {
      assert (a + y)[1..] == a[1..] + y;
      RunsOfSeparators(a[1..], y);
    }
  }

  lemma {:induction false} RunLengthBeforeSeparators(y: string, c: string)
    requires c == [] || !IsSlugChar(c[0])
    ensures RunLength(y + c) == RunLength(y)
    decreases |y|
  {
    if y == [] {
      assert y + c == c;
    } else if IsSlugChar(y[0]) {
      assert (y + c)[1..] == y[1..] + c;
      RunLengthBeforeSeparators(y[1..], c);
    }
  }

  lemma {:induction false} RunsBeforeSeparators(y: string, c: string)
    requires forall i :: 0 <= i < |c| ==> !IsSlugChar(c[i])
    ensures Runs(y + c) == Runs(y)
    decreases |y|
  {
    if y == [] {
      assert y + c == c + [];
      RunsOfSeparators(c, []);
      assert Runs([]) == [];
    } else if !IsSlugChar(y[0]) {
      assert (y + c)[1..] == y[1..] + c;
      RunsBeforeSeparators(y[1..], c);
    } else {
      RunLengthBeforeSeparators(y, c);
      var n := RunLength(y);
      assert (y + c)[..n] == y[..n];
      assert (y + c)[n..] == y[n..] + c;
      RunsBeforeSeparators(y[n..], c);
    }
  }

  lemma LoweredSpaceHasNoSlugChar(s: string)
    requires AllDropped(s, IsSpace)
    ensures forall i :: 0 <= i < |Lower(s)| ==> !IsSlugChar(Lower(s)[i])
  {
  }

  /** Stripping the word first does not change its runs. */
  lemma RunsIgnoreStrip(value: string)
    ensures Runs(Lower(Strip(value))) == Runs(Lower(value))
  {
    var head, tail := TrimSplit(value, IsSpace);
    var body := Lower(Strip(value));
    LowerOfThree(head, Strip(value), tail);
    LoweredSpaceHasNoSlugChar(head);
    LoweredSpaceHasNoSlugChar(tail);
    assert Lower(value) == Lower(head) + (body + Lower(tail));
    RunsOfSeparators(Lower(head), body + Lower(tail));
    RunsBeforeSeparators(body, Lower(tail));
  }

  /** The stripped word has the same slug as the word. */
  lemma SlugifyIgnoresStrip(value: string)
    ensures Slugify(Strip(value)) == Slugify(value)
  {
    SlugifyIsJoinedRuns(value);
    SlugifyIsJoinedRuns(Strip(value));
    TrimIdempotent(value, IsSpace);
    RunsIgnoreStrip(Strip(value));
    RunsIgnoreStrip(value);
  }

  /**
    Reference definition: the slug is the runs of letters and digits of the
    lowered word joined by single hyphens, `"-".join(re.findall("[a-z0-9]+",
    value.lower()))`.
   */
  lemma SlugifyIsJoinedRuns(value: string)
    ensures Slugify(value) == HyphenJoin(Runs(Lower(value)))
  {
    if value != [] {
      var x := Lower(Strip(value));
      var lead, trail := CollapseShape(x, false);
      RunsAreRuns(x);
      HyphenJoinEnds(Runs(x));
      TrimOfShape(lead, HyphenJoin(Runs(x)), trail, IsHyphen);
      RunsIgnoreStrip(value);
    }
  }
}

=== FILE: tags.dfy ===
/**
  The tag list of a saved word (scripts/word_importer.py, `main`): the
  "Tags (comma separated)" field is split on commas, each piece is stripped,
  and blank pieces are dropped.
 */
module Tags {
  import opened Text

  /** A tag as it is stored: non-blank, stripped, free of commas. */
  predicate IsTag(t: string) {
    t != [] && EndsKept(t, IsSpace) && ',' !in t
  }

  /** `[p.strip() for p in pieces if p.strip()]` */
  function KeepNonBlank(pieces: seq<string>): (tags: seq<string>)
    ensures |tags| <= |pieces|
  {
    if pieces == [] then []
    else
      var t := Strip(pieces[0]);
      (if t != [] then [t] else []) + KeepNonBlank(pieces[1..])
  }

  /** `[tag.strip() for tag in raw.split(",") if tag.strip()]`: every tag is non-blank, stripped and comma-free. */
  function ParseTags(raw: string): (tags: seq<string>)
    ensures forall i :: 0 <= i < |tags| ==> IsTag(tags[i])
  {
    KeepNonBlankTags(Split(raw, ','));
    KeepNonBlank(Split(raw, ','))
  }

  lemma {:induction false} KeepNonBlankConcat(a: seq<string>, b: seq<string>)
    ensures KeepNonBlank(a + b) == KeepNonBlank(a) + KeepNonBlank(b)
    decreases |a|
  {
    if a == [] {
      assert a + b == b;
    } else {
      assert (a + b)[0] == a[0];
      assert (a + b)[1..] == a[1..] + b;
      KeepNonBlankConcat(a[1..], b);
    }
  }

  /** Each piece is a slice of a comma-free piece, so no tag holds a comma, and stripping leaves no blank or padded tag. */
  lemma {:induction false} KeepNonBlankTags(pieces: seq<string>)
    requires forall i :: 0 <= i < |pieces| ==> ',' !in pieces[i]
    ensures forall i :: 0 <= i < |KeepNonBlank(pieces)| ==> IsTag(KeepNonBlank(pieces)[i])
    decreases |pieces|
  {
    if pieces != [] {
      KeepNonBlankTags(pieces[1..]);
      var t := Strip(pieces[0]);
      var head, tail := TrimSplit(pieces[0], IsSpace);
      assert pieces[0] == head + t + tail;
      assert ',' !in t;
    }
  }

  /** A blank tags field, the form's default `""` among them, gives no tags. */
  lemma ParseTagsOfBlank(raw: string)
    requires AllDropped(raw, IsSpace)
    ensures ParseTags(raw) == []
  {
    assert ',' !in raw by {
      forall i | 0 <= i < |raw| ensures raw[i] != ',' {
        assert IsSpace(raw[i]);
      }
    }
    SplitNoSep(raw, ',');
    TrimOfDropped(raw, IsSpace);
  }

  /**
    A field with no comma is one piece: it gives its stripped text as the
    only tag, or no tag when that is empty.
   */
  lemma ParseTagsOfPiece(p: string)
    requires ',' !in p
    ensures ParseTags(p) == if Strip(p) == [] then [] else [Strip(p)]
  {
    SplitNoSep(p, ',');
    assert KeepNonBlank([p][1..]) == [];
  }

  lemma {:induction false} JoinConcat(a: seq<string>, b: seq<string>, sep: char)
    requires |a| >= 1 && |b| >= 1
    ensures Join(a + b, sep) == Join(a, sep) + [sep] + Join(b, sep)
    decreases |a|
  {
    if |a| == 1 {
      assert (a + b)[1..] == b;
    } else {
      assert (a + b)[1..] == a[1..] + b;
      JoinConcat(a[1..], b, sep);
    }
  }

  /** Splitting on a comma splits the text on either side of it separately. */
  lemma SplitAtSeparator(a: string, b: string, sep: char)
    ensures Split(a + [sep] + b, sep) == Split(a, sep) + Split(b, sep)
  {
    var pa, pb := Split(a, sep), Split(b, sep);
    JoinConcat(pa, pb, sep);
    assert forall i :: 0 <= i < |pa + pb| ==> sep !in (pa + pb)[i] by {
      forall i | 0 <= i < |pa + pb| ensures sep !in (pa + pb)[i] {
        if i < |pa| { assert (pa + pb)[i] == pa[i]; } else { assert (pa + pb)[i] == pb[i - |pa|]; }
      }
    }
    SplitJoin(pa + pb, sep);
  }

  /**
    Tags keep the left-to-right order of the field: the tags of `a,b` are the
    tags of `a` followed by the tags of `b`.
   */
  lemma ParseTagsConcat(a: string, b: string)
    ensures ParseTags(a + "," + b) == ParseTags(a) + ParseTags(b)
  {
    SplitAtSeparator(a, b, ',');
    KeepNonBlankConcat(Split(a, ','), Split(b, ','));
  }

  lemma {:induction false} KeepNonBlankOfTags(tags: seq<string>)
    requires forall i :: 0 <= i < |tags| ==> IsTag(tags[i])
    ensures KeepNonBlank(tags) == tags
    decreases |tags|
  {
    if tags != [] {
      TrimOfKept(tags[0], IsSpace);
      KeepNonBlankOfTags(tags[1..]);
      assert tags == [tags[0]] + tags[1..];
    }
  }

  /**
    Writing stored tags back as `a,b,c` and parsing the field again gives
    the same tags.
   */
  lemma ParseTagsRoundTrip(tags: seq<string>)
    requires |tags| >= 1
    requires forall i :: 0 <= i < |tags| ==> IsTag(tags[i])
    ensures ParseTags(Join(tags, ',')) == tags
  {
    SplitJoin(tags, ',');
    KeepNonBlankOfTags(tags);
  }
}

=== FILE: text.dfy ===
/**
  The Python string primitives the importer relies on: `str.strip()`,
  `str.strip(chars)`, `str.lower()`, `str.split(sep)`, `str.split(sep, 1)`,
  `str.splitlines()` and `str.startswith`, over `seq<char>`.

  Whitespace and line breaks are the fixed sets Python's `str.isspace` and
  `str.splitlines` use; lowering only maps the ASCII letters `A`-`Z`.
 */
module Text {

  /** The characters `str.strip()` removes (Python's whitespace set). */
  predicate IsSpace(c: char) {
    || ('\t' <= c <= '\r')
    || ('\U{1C}' <= c <= ' ')
    || c == '\U{85}' || c == '\U{A0}' || c == '\U{1680}'
    || ('\U{2000}' <= c <= '\U{200A}')
    || c == '\U{2028}' || c == '\U{2029}' || c == '\U{202F}'
    || c == '\U{205F}' || c == '\U{3000}'
  }

  /** The characters at which `str.splitlines()` ends a line. */
  predicate IsLineBreak(c: char) {
    || ('\n' <= c <= '\r')
    || ('\U{1C}' <= c <= '\U{1E}')
    || c == '\U{85}' || c == '\U{2028}' || c == '\U{2029}'
  }

  predicate NoLineBreak(s: string) {
    forall i :: 0 <= i < |s| ==> !IsLineBreak(s[i])
  }

  /** Every character of `s` is one `drop` selects. */
  predicate AllDropped(s: string, drop: char -> bool) {
    forall i :: 0 <= i < |s| ==> drop(s[i])
  }

  /** Neither end of `s` is a character `drop` selects. */
  predicate EndsKept(s: string, drop: char -> bool) {
    s == [] || (!drop(s[0]) && !drop(s[|s| - 1]))
  }

  predicate IsHyphen(c: char) { c == '-' }
  predicate IsDoubleQuote(c: char) { c == '"' }
  predicate IsSingleQuote(c: char) { c == '\'' }

  /** `s.lstrip(chars)`: drop the leading characters `drop` selects. */
  function TrimStart(s: string, drop: char -> bool): (r: string)
    ensures |r| <= |s|
    ensures r == [] || !drop(r[0])
  {
    if s != [] && drop(s[0]) then TrimStart(s[1..], drop) else s
  }

  /** `s.rstrip(chars)`: drop the trailing characters `drop` selects. */
  function TrimEnd(s: string, drop: char -> bool): (r: string)
    ensures |r| <= |s|
    ensures r == [] || !drop(r[|r| - 1])
    ensures r != [] ==> r[0] == s[0]
    ensures s != [] && !drop(s[0]) ==> r != []
  {
    if s != [] && drop(s[|s| - 1]) then TrimEnd(s[..|s| - 1], drop) else s
  }

  /** TrimStart removes a prefix made only of dropped characters. */
  lemma {:induction false} TrimStartShape(s: string, drop: char -> bool)
    ensures var r := TrimStart(s, drop);
      r == s[|s| - |r|..] && AllDropped(s[..|s| - |r|], drop)
    decreases |s|
  {
    if s != [] && drop(s[0]) {
      TrimStartShape(s[1..], drop);
      var r := TrimStart(s, drop);
      assert s[1..][..|s| - 1 - |r|] == s[1..|s| - |r|];
    }
  }

  /** TrimEnd removes a suffix made only of dropped characters. */
  lemma {:induction false} TrimEndShape(s: string, drop: char -> bool)
    ensures var r := TrimEnd(s, drop);
      r == s[..|r|] && AllDropped(s[|r|..], drop)
    decreases |s|
  {
    if s != [] && drop(s[|s| - 1]) {
      TrimEndShape(s[..|s| - 1], drop);
      var r := TrimEnd(s, drop);
      assert s[..|s| - 1][|r|..] == s[|r|..|s| - 1];
    }
  }

  /** `s.strip(chars)`: drop the selected characters from both ends. */
  function Trim(s: string, drop: char -> bool): (r: string)
    ensures |r| <= |s|
    ensures EndsKept(r, drop)
  {
    TrimEnd(TrimStart(s, drop), drop)
  }

  /** Python `s.strip()`. */
  function Strip(s: string): (r: string)
    ensures EndsKept(r, IsSpace)
  {
    Trim(s, IsSpace)
  }

  /**
    Trim removes exactly a dropped prefix and a dropped suffix: `s` is the
    dropped head, then the result, then the dropped tail.
   */
  lemma TrimSplit(s: string, drop: char -> bool) returns (head: string, tail: string)
    ensures s == head + Trim(s, drop) + tail
    ensures AllDropped(head, drop) && AllDropped(tail, drop)
  {
    var t := TrimStart(s, drop);
    var r := TrimEnd(t, drop);
    TrimStartShape(s, drop);
    TrimEndShape(t, drop);
    assert Trim(s, drop) == r;
    head := s[..|s| - |t|];
    tail := t[|r|..];
    assert AllDropped(head, drop);
    assert AllDropped(tail, drop);
    assert t == r + tail;
    assert s == head + t;
  }

  /**
    Conversely, any split of `s` into a dropped head, a body with kept ends
    and a dropped tail trims to that body: Trim is determined by this shape.
   */
  lemma {:induction false} TrimOfShape(a: string, body: string, b: string, drop: char -> bool)
    requires AllDropped(a, drop) && AllDropped(b, drop)
    requires EndsKept(body, drop)
    ensures Trim(a + body + b, drop) == body
  {
    if body == [] {
      assert a + body + b == a + b + [];
      assert AllDropped(a + b, drop);
      TrimStartOfShape(a + b, [], drop);
    } else {
      assert a + body + b == a + (body + b);
      TrimStartOfShape(a, body + b, drop);
      TrimEndOfShape(body, b, drop);
    }
  }

  lemma {:induction false} TrimStartOfShape(a: string, rest: string, drop: char -> bool)
    requires AllDropped(a, drop)
    requires rest == [] || !drop(rest[0])
    ensures TrimStart(a + rest, drop) == rest
    decreases |a|
  {
    if a != [] {
      assert (a + rest)[1..] == a[1..] + rest;
      TrimStartOfShape(a[1..], rest, drop);
    }
  }

  lemma {:induction false} TrimEndOfShape(body: string, b: string, drop: char -> bool)
    requires body != [] && !drop(body[|body| - 1])
    requires AllDropped(b, drop)
    ensures TrimEnd(body + b, drop) == body
    decreases |b|
  {
    if b != [] {
      assert (body + b)[..|body + b| - 1] == body + b[..|b| - 1];
      TrimEndOfShape(body, b[..|b| - 1], drop);
    }
  }

  /** Trimming the end of `a + b` stops inside `b` when `a` ends with a kept character. */
  lemma {:induction false} TrimEndKeepsPrefix(a: string, b: string, drop: char -> bool) returns (b': string)
    requires a != [] && !drop(a[|a| - 1])
    ensures TrimEnd(a + b, drop) == a + b'
    ensures |b'| <= |b| && b' == b[..|b'|]
    decreases |b|
  {
    if b == [] {
      b' := [];
      assert a + b == a + b';
    } else if drop(b[|b| - 1]) {
      assert (a + b)[..|a + b| - 1] == a + b[..|b| - 1];
      b' := TrimEndKeepsPrefix(a, b[..|b| - 1], drop);
    } else {
      b' := b;
    }
  }

  /** Text made only of dropped characters trims to nothing. */
  lemma {:induction false} TrimOfDropped(s: string, drop: char -> bool)
    requires AllDropped(s, drop)
    ensures Trim(s, drop) == []
    decreases |s|
  {
    if s != [] {
      TrimOfDropped(s[1..], drop);
    }
  }

  /** Text whose ends are kept is left alone by the trim. */
  lemma TrimOfKept(t: string, drop: char -> bool)
    requires EndsKept(t, drop)
    ensures Trim(t, drop) == t
  {
    TrimOfShape([], t, [], drop);
    assert [] + t + [] == t;
  }

  /** Trimming twice trims nothing more (Python `strip` is idempotent). */
  lemma TrimIdempotent(s: string, drop: char -> bool)
    ensures Trim(Trim(s, drop), drop) == Trim(s, drop)
  {
    TrimOfKept(Trim(s, drop), drop);
  }

  /** `r` occurs in `s` at offset `k`. */
  predicate SliceAt(s: string, k: nat, r: string) {
    k + |r| <= |s| && s[k..k + |r|] == r
  }

  /** A slice of a slice is a slice, and slicing adds no line break. */
  lemma SliceOfSlice(s: string, t: string, u: string, i: nat, j: nat)
    requires SliceAt(s, i, t) && SliceAt(t, j, u)
    ensures SliceAt(s, i + j, u)
  {
    assert forall m :: 0 <= m < |u| ==> u[m] == t[j + m] == s[i + j + m];
  }

  lemma SliceNoLineBreak(s: string, k: nat, r: string)
    requires SliceAt(s, k, r) && NoLineBreak(s)
    ensures NoLineBreak(r)
  {
    assert forall m :: 0 <= m < |r| ==> r[m] == s[k + m];
  }

  /** Where the trimmed text sits inside the original. */
  lemma TrimOffset(s: string, drop: char -> bool) returns (k: nat)
    ensures SliceAt(s, k, Trim(s, drop))
  {
    var head, tail := TrimSplit(s, drop);
    k := |head|;
    assert s[k..k + |Trim(s, drop)|] == Trim(s, drop);
  }

  /** A trimmed string is a slice of the original, so it has no line break the original lacks. */
  lemma TrimKeepsNoLineBreak(s: string, drop: char -> bool)
    requires NoLineBreak(s)
    ensures NoLineBreak(Trim(s, drop))
  {
    var head, tail := TrimSplit(s, drop);
    var r := Trim(s, drop);
    assert forall i :: 0 <= i < |r| ==> r[i] == s[|head| + i];
  }

  function LowerChar(c: char): char {
    if 'A' <= c <= 'Z' then (c as int + 32) as char else c
  }

  /** Python `s.lower()` restricted to ASCII letters. */
  function Lower(s: string): (r: string)
    ensures |r| == |s|
  {
    seq(|s|, i requires 0 <= i < |s| => LowerChar(s[i]))
  }

  lemma LowerConcat(a: string, b: string)
    ensures Lower(a + b) == Lower(a) + Lower(b)
  {
  }

  predicate StartsWith(s: string, prefix: string) {
    |prefix| <= |s| && s[..|prefix|] == prefix
  }

  /** Index of the first occurrence of `c` in `s`, or `|s|` if there is none. */
  function IndexOf(s: string, c: char): (n: nat)
    ensures n <= |s|
    ensures forall i :: 0 <= i < n ==> s[i] != c
    ensures n < |s| ==> s[n] == c
  {
    if s == [] then 0
    else if s[0] == c then 0
    else 1 + IndexOf(s[1..], c)
  }

  /** Python `s.split(sep)` for a one-character separator. */
  function Split(s: string, sep: char): (r: seq<string>)
    ensures |r| >= 1
    ensures forall i :: 0 <= i < |r| ==> sep !in r[i]
    ensures Join(r, sep) == s
  {
    if s == [] then [""]
    else if s[0] == sep then [""] + Split(s[1..], sep)
    else
      var t := Split(s[1..], sep);
      [[s[0]] + t[0]] + t[1..]
  }

  /** `sep.join(parts)`, the inverse of Split. */
  function Join(parts: seq<string>, sep: char): string
    requires |parts| >= 1
  {
    if |parts| == 1 then parts[0] else parts[0] + [sep] + Join(parts[1..], sep)
  }

  /** Split recovers the pieces Join glued together when no piece holds the separator. */
  lemma {:induction false} SplitJoin(parts: seq<string>, sep: char)
    requires |parts| >= 1
    requires forall i :: 0 <= i < |parts| ==> sep !in parts[i]
    ensures Split(Join(parts, sep), sep) == parts
    decreases |parts|, |parts[0]|
  {
    var p := parts[0];
    if |parts| == 1 {
      SplitNoSep(p, sep);
    } else if p == [] {
      var rest := Join(parts[1..], sep);
      assert Join(parts, sep) == [sep] + rest;
      assert ([sep] + rest)[1..] == rest;
      SplitJoin(parts[1..], sep);
      assert parts == [""] + parts[1..];
    } else {
      var shorter := [p[1..]] + parts[1..];
      assert shorter[1..] == parts[1..];
      assert Join(parts, sep) == [p[0]] + Join(shorter, sep);
      assert ([p[0]] + Join(shorter, sep))[1..] == Join(shorter, sep);
      assert sep !in shorter[0];
      assert p[0] != sep;
      SplitJoin(shorter, sep);
      assert p == [p[0]] + shorter[0];
      assert parts == [[p[0]] + shorter[0]] + shorter[1..];
    }
  }

  lemma {:induction false} SplitNoSep(s: string, sep: char)
    requires sep !in s
    ensures Split(s, sep) == [s]
  {
    if s != [] {
      SplitNoSep(s[1..], sep);
    }
  }

  /** Python `s.split(sep, 1)`: at most one cut, at the first separator. */
  function SplitOnce(s: string, sep: char): (r: seq<string>)
    ensures 1 <= |r| <= 2
    ensures |r| == 2 <==> sep in s
    ensures sep !in r[0]
    ensures |r| == 1 ==> r[0] == s
    ensures |r| == 2 ==> r[0] + [sep] + r[1] == s
  {
    var i := IndexOf(s, sep);
    if i == |s| then [s] else [s[..i], s[i + 1..]]
  }

  /** Length of the first line of `s`: the prefix before the first line break. */
  function LineLength(s: string): (n: nat)
    ensures n <= |s|
    ensures forall i :: 0 <= i < n ==> !IsLineBreak(s[i])
    ensures n < |s| ==> IsLineBreak(s[n])
  {
    if s == [] || IsLineBreak(s[0]) then 0 else 1 + LineLength(s[1..])
  }

  lemma {:induction false} LineLengthAt(s: string, n: nat)
    requires n <= |s| && NoLineBreak(s[..n])
    requires n == |s| || IsLineBreak(s[n])
    ensures LineLength(s) == n
    decreases n
  {
    if n > 0 {
      assert !IsLineBreak(s[..n][0]);
      assert s[1..][..n - 1] == s[..n][1..];
      LineLengthAt(s[1..], n - 1);
    }
  }

  /**
    Python `s.splitlines()`: lines end at any line break, `\r\n` counts as one
    break, and a break at the very end opens no further line.
   */
  function SplitLines(s: string): (r: seq<string>)
    ensures forall i :: 0 <= i < |r| ==> NoLineBreak(r[i])
    ensures s == [] <==> r == []
    decreases |s|
  {
    if s == [] then []
    else
      var n := LineLength(s);
      var width := if n + 1 < |s| && s[n] == '\r' && s[n + 1] == '\n' then 2 else 1;
      if n == |s| then [s] else [s[..n]] + SplitLines(s[n + width..])
  }
}

=== FILE: translation.dfy ===
/**
  `translate_en_to_he` (scripts/word_importer.py): the guard on its input
  and the clean-up of the model's reply. The HTTP request itself is not
  modelled; its outcome is the `Reply` parameter.
 */
module Translation {
  import opened Wrappers
  import opened Text

  /**
    How the request to the translation service ended: a network or JSON
    failure, or the decoded body's `response` field (an absent or null field
    reads as "").
   */
  datatype Reply = Failed | Answered(response: string)

  /** The loop over `splitlines()`: the first line that is not blank, stripped. */
  function FirstNonBlankLine(lines: seq<string>): (r: Option<string>)
    ensures r.Some? ==> r.value != [] && EndsKept(r.value, IsSpace)
    ensures r.None? <==> forall i :: 0 <= i < |lines| ==> Strip(lines[i]) == []
  {
    if lines == [] then None
    else
      var cleaned := Strip(lines[0]);
      if cleaned != [] then Some(cleaned) else FirstNonBlankLine(lines[1..])
  }

  /** `t.lower().startswith("output:")` */
  predicate HasOutputPrefix(t: string) {
    StartsWith(Lower(t), "output:")
  }

  /** `t.split(":", 1)[1].strip()` when `t.lower()` starts with `output:`. */
  function DropOutputPrefix(t: string): (r: string)
    ensures HasOutputPrefix(t) ==> |t| >= 7 && r == Strip(t[7..])
    ensures !HasOutputPrefix(t) ==> r == t
  {
    if HasOutputPrefix(t) then
      OutputPrefixColon(t);
      Strip(SplitOnce(t, ':')[1])
    else t
  }

  /** `t.strip('"').strip("'")` */
  function StripQuotes(t: string): (r: string)
    ensures |r| <= |t|
    ensures EndsKept(r, IsSingleQuote)
    ensures EndsKept(t, IsDoubleQuote) && EndsKept(t, IsSingleQuote) ==> r == t
  {
    Trim(Trim(t, IsDoubleQuote), IsSingleQuote)
  }

  predicate IsQuote(c: char) { IsDoubleQuote(c) || IsSingleQuote(c) }

  /**
    Quote stripping removes nothing but quotes, and only at the two ends.
    First every `"` at either end goes (`h1`, `t1`); what is left starts and
    ends with something other than `"`, unless it consists only of the `'`
    runs `h2` and `t2` that go next.
   */
  lemma StripQuotesShape(t: string) returns (h1: string, h2: string, t2: string, t1: string)
    ensures t == h1 + h2 + StripQuotes(t) + t2 + t1
    ensures AllDropped(h1, IsDoubleQuote) && AllDropped(t1, IsDoubleQuote)
    ensures AllDropped(h2, IsSingleQuote) && AllDropped(t2, IsSingleQuote)
    ensures EndsKept(h2 + StripQuotes(t) + t2, IsDoubleQuote)
    ensures AllDropped(h1 + h2, IsQuote) && AllDropped(t2 + t1, IsQuote)
  {
    h1, t1 := TrimSplit(t, IsDoubleQuote);
    var m := Trim(t, IsDoubleQuote);
    h2, t2 := TrimSplit(m, IsSingleQuote);
    assert m == h2 + StripQuotes(t) + t2;
    assert t == h1 + h2 + StripQuotes(t) + t2 + t1;
    var head, tail := h1 + h2, t2 + t1;
    forall i | 0 <= i < |head| ensures IsQuote(head[i]) {
      if i < |h1| { assert IsDoubleQuote(h1[i]); } else { assert IsSingleQuote(h2[i - |h1|]); }
    }
    forall i | 0 <= i < |tail| ensures IsQuote(tail[i]) {
      if i < |t2| { assert IsSingleQuote(t2[i]); } else { assert IsDoubleQuote(t1[i - |t2|]); }
    }
  }

  /**
    The converse of `StripQuotesShape`: runs of `"` around runs of `'` around
    a core that is kept are all removed, however many quotes each run holds
    and whether or not the two sides match.
   */
  lemma StripQuotesOfRuns(h1: string, h2: string, w: string, t2: string, t1: string)
    requires AllDropped(h1, IsDoubleQuote) && AllDropped(t1, IsDoubleQuote)
    requires AllDropped(h2, IsSingleQuote) && AllDropped(t2, IsSingleQuote)
    requires EndsKept(h2 + w + t2, IsDoubleQuote) && EndsKept(w, IsSingleQuote)
    ensures StripQuotes(h1 + h2 + w + t2 + t1) == w
  {
    assert h1 + h2 + w + t2 + t1 == h1 + (h2 + w + t2) + t1;
    TrimOfShape(h1, h2 + w + t2, t1, IsDoubleQuote);
    TrimOfShape(h2, w, t2, IsSingleQuote);
  }

  /**
    Text between a pair of double quotes or a pair of single quotes comes
    back without them, provided it has no quote at either end itself.
   */
  lemma StripQuotesOfQuoted(w: string, q: char)
    requires IsQuote(q)
    requires EndsKept(w, IsDoubleQuote) && EndsKept(w, IsSingleQuote)
    ensures StripQuotes([q] + w + [q]) == w
  {
    var t := [q] + w + [q];
    if q == '"' {
      TrimOfShape([q], w, [q], IsDoubleQuote);
      TrimOfKept(w, IsSingleQuote);
    } else {
      TrimOfKept(t, IsDoubleQuote);
      TrimOfShape([q], w, [q], IsSingleQuote);
    }
  }

  /** The clean-up of the reply text, lines 246-261. */
  function CleanReply(response: string): (r: Option<string>)
    ensures r.Some? ==> r.value != [] && EndsKept(r.value, IsSingleQuote)
  {
    var translated := Strip(response);
    if translated == [] then None
    else
      var line := match FirstNonBlankLine(SplitLines(translated))
        case Some(l) => l
        case None => translated;
      var cleaned := StripQuotes(DropOutputPrefix(line));
      if cleaned == [] then None else Some(cleaned)
  }

  /**
    `translate_en_to_he`: a blank word sends no request and yields nothing;
    a failed request yields nothing; otherwise the reply is cleaned up.
   */
  function TranslateEnToHe(text: string, reply: Reply): (r: Option<string>)
    ensures Strip(text) == [] ==> r.None?
    ensures reply.Failed? ==> r.None?
    ensures Strip(text) != [] && reply.Answered? ==> r == CleanReply(reply.response)
    ensures r.Some? ==> r.value != [] && EndsKept(r.value, IsSingleQuote)
  {
    if Strip(text) == [] then None
    else match reply
      case Failed => None
      case Answered(response) => CleanReply(response)
  }

  /** With ASCII lowering, `t.lower()` starting with `output:` puts the first colon of `t` at index 6. */
  lemma OutputPrefixColon(t: string)
    requires HasOutputPrefix(t)
    ensures IndexOf(t, ':') == 6
    ensures ':' in t
    ensures SplitOnce(t, ':')[1] == t[7..]
  {
    assert Lower(t)[6] == ':';
    assert LowerChar(t[6]) == ':';
    forall i | 0 <= i < 6 ensures t[i] != ':' {
      assert Lower(t)[i] == "output:"[i];
    }
    IndexOfAt(t, ':', 6);
  }

  lemma {:induction false} IndexOfAt(s: string, c: char, n: nat)
    requires n < |s| && s[n] == c
    requires forall i :: 0 <= i < n ==> s[i] != c
    ensures IndexOf(s, c) == n
    decreases n
  {
    if n > 0 {
      IndexOfAt(s[1..], c, n - 1);
    }
  }

  /** A stripped, non-empty text has a non-blank first line. */
  lemma FirstLineOfStripped(t: string)
    requires t != [] && !IsSpace(t[0])
    ensures FirstNonBlankLine(SplitLines(t)).Some?
  {
    var n := LineLength(t);
    assert n > 0;
    var line := t[..n];
    assert SplitLines(t)[0] == line;
    NonBlankStart(line);
  }

  /** A string that starts with a non-space character does not strip to nothing. */
  lemma NonBlankStart(s: string)
    requires s != [] && !IsSpace(s[0])
    ensures Strip(s) != []
  {
    assert TrimStart(s, IsSpace) == s;
  }

  /** The line taken is the stripped form of the first line that is not blank. */
  lemma {:induction false} FirstNonBlankLineSource(lines: seq<string>) returns (i: nat)
    requires FirstNonBlankLine(lines).Some?
    ensures i < |lines| && FirstNonBlankLine(lines).value == Strip(lines[i])
    ensures forall j :: 0 <= j < i ==> Strip(lines[j]) == []
    decreases |lines|
  {
    if Strip(lines[0]) != [] {
      i := 0;
    } else {
      var j := FirstNonBlankLineSource(lines[1..]);
      i := j + 1;
      forall m | 0 <= m < i ensures Strip(lines[m]) == [] {
        if m > 0 {
          assert lines[m] == lines[1..][m - 1];
        }
      }
    }
  }

  /** The prefix removal keeps a slice of the line, after the prefix when there is one. */
  lemma DropOutputPrefixOffset(line: string) returns (k: nat)
    ensures SliceAt(line, k, DropOutputPrefix(line))
    ensures HasOutputPrefix(line) ==> k >= 7
  {
    if HasOutputPrefix(line) {
      OutputPrefixColon(line);
      var after := line[7..];
      var j := TrimOffset(after, IsSpace);
      assert SliceAt(line, 7, after);
      SliceOfSlice(line, after, Strip(after), 7, j);
      k := 7 + j;
    } else {
      k := 0;
      assert line[..|line|] == line;
    }
  }

  /** The quote removal keeps a slice of its input. */
  lemma StripQuotesOffset(body: string) returns (k: nat)
    ensures SliceAt(body, k, StripQuotes(body))
  {
    var mid := Trim(body, IsDoubleQuote);
    var k1 := TrimOffset(body, IsDoubleQuote);
    var k2 := TrimOffset(mid, IsSingleQuote);
    SliceOfSlice(body, mid, StripQuotes(body), k1, k2);
    k := k1 + k2;
  }

  /** The whole clean-up of one line keeps a slice of it. */
  lemma CleanLineOffset(line: string) returns (k: nat)
    ensures SliceAt(line, k, StripQuotes(DropOutputPrefix(line))) && (HasOutputPrefix(line) ==> k >= 7)
  {
    var body := DropOutputPrefix(line);
    var r := StripQuotes(body);
    var k0 := DropOutputPrefixOffset(line);
    var k1 := StripQuotesOffset(body);
    SliceOfSlice(line, body, r, k0, k1);
    k := k0 + k1;
  }

  /** The line the clean-up works on, when it yields something. */
  lemma CleanReplyLine(response: string) returns (line: string, r: string)
    requires CleanReply(response).Some?
    ensures FirstNonBlankLine(SplitLines(Strip(response))) == Some(line)
    ensures NoLineBreak(line)
    ensures CleanReply(response).value == r
    ensures r == StripQuotes(DropOutputPrefix(line))
  {
    var translated := Strip(response);
    NonBlankStart(translated);
    FirstLineOfStripped(translated);
    line := FirstNonBlankLine(SplitLines(translated)).value;
    var i := FirstNonBlankLineSource(SplitLines(translated));
    TrimKeepsNoLineBreak(SplitLines(translated)[i], IsSpace);
    r := StripQuotes(DropOutputPrefix(line));
  }

  /**
    The clean-up keeps a slice of the first non-blank line of the reply, so
    its result is one line; when that line began with `output:` in any case,
    the slice lies after the prefix.
   */
  lemma CleanReplyWithinFirstLine(response: string) returns (line: string, k: nat)
    requires CleanReply(response).Some?
    ensures FirstNonBlankLine(SplitLines(Strip(response))) == Some(line)
    ensures SliceAt(line, k, CleanReply(response).value)
    ensures HasOutputPrefix(line) ==> k >= 7
    ensures NoLineBreak(CleanReply(response).value)
  {
    var r;
    line, r := CleanReplyLine(response);
    k := CleanLineOffset(line);
    SliceNoLineBreak(line, k, r);
  }

  /**
    A translation is only produced for a non-blank word and an answered
    request, and it is a single line.
   */
  lemma TranslationIsOneLine(text: string, reply: Reply)
    requires TranslateEnToHe(text, reply).Some?
    ensures Strip(text) != [] && reply.Answered?
    ensures NoLineBreak(TranslateEnToHe(text, reply).value)
  {
    var line, k := CleanReplyWithinFirstLine(reply.response);
  }

  /** A word the clean-up hands back unchanged: no surrounding whitespace or quotes, one line. */
  predicate IsCleanWord(w: string) {
    && w != []
    && EndsKept(w, IsSpace) && EndsKept(w, IsDoubleQuote) && EndsKept(w, IsSingleQuote)
    && NoLineBreak(w)
  }

  /**
    When the reply is blank lines, then `line`, then nothing or a further
    line, stripping and splitting it finds `line` first.
   */
  lemma FirstLineOfReply(lead: string, line: string, tail: string)
    requires AllDropped(lead, IsSpace)
    requires line != [] && EndsKept(line, IsSpace) && NoLineBreak(line)
    requires tail == [] || IsLineBreak(tail[0])
    ensures FirstNonBlankLine(SplitLines(Strip(lead + line + tail))) == Some(line)
  {
    assert lead + line + tail == lead + (line + tail);
    TrimStartOfShape(lead, line + tail, IsSpace);
    var t' := TrimEndKeepsPrefix(line, tail, IsSpace);
    var stripped := line + t';
    assert Strip(lead + line + tail) == stripped;
    assert stripped[..|line|] == line;
    LineLengthAt(stripped, |line|);
    assert SplitLines(stripped)[0] == line;
    TrimOfKept(line, IsSpace);
  }

  /**
    The answer shape the prompt asks for, `output: <word>` in any letter
    case, possibly after blank lines and before further lines, cleans up to
    exactly the word.
   */
  lemma CleanReplyOfPrefixedAnswer(lead: string, prefix: string, gap: string, w: string, tail: string)
    requires AllDropped(lead, IsSpace)
    requires Lower(prefix) == "output:"
    requires AllDropped(gap, IsSpace) && NoLineBreak(gap)
    requires IsCleanWord(w)
    requires tail == [] || IsLineBreak(tail[0])
    ensures CleanReply(lead + prefix + gap + w + tail) == Some(w)
  {
    var line := prefix + gap + w;
    PrefixLine(prefix, gap, w);
    assert lead + prefix + gap + w + tail == lead + line + tail;
    FirstLineOfReply(lead, line, tail);
    PrefixedLineCleans(prefix, gap, w);
  }

  /** The characters of an `output:` prefix in any case: letters and a colon. */
  lemma OutputPrefixChars(prefix: string)
    requires Lower(prefix) == "output:"
    ensures |prefix| == 7 && !IsSpace(prefix[0]) && NoLineBreak(prefix)
  {
    assert Lower(prefix)[0] == 'o';
    forall i | 0 <= i < |prefix| ensures !IsLineBreak(prefix[i]) {
      assert LowerChar(prefix[i]) == "output:"[i];
    }
  }

  lemma PrefixLine(prefix: string, gap: string, w: string)
    requires Lower(prefix) == "output:"
    requires AllDropped(gap, IsSpace) && NoLineBreak(gap)
    requires IsCleanWord(w)
    ensures var line := prefix + gap + w;
      line != [] && EndsKept(line, IsSpace) && NoLineBreak(line)
  {
    OutputPrefixChars(prefix);
    var line := prefix + gap + w;
    assert line[0] == prefix[0];
    assert line[|line| - 1] == w[|w| - 1];
    forall i | 0 <= i < |line| ensures !IsLineBreak(line[i]) {
      if i < |prefix| { assert line[i] == prefix[i]; }
      else if i < |prefix| + |gap| { assert line[i] == gap[i - |prefix|]; }
      else { assert line[i] == w[i - |prefix| - |gap|]; }
    }
  }

  lemma PrefixedLineCleans(prefix: string, gap: string, w: string)
    requires Lower(prefix) == "output:"
    requires AllDropped(gap, IsSpace)
    requires IsCleanWord(w)
    ensures StripQuotes(DropOutputPrefix(prefix + gap + w)) == w
  {
    var line := prefix + gap + w;
    OutputPrefixChars(prefix);
    LowerConcat(prefix, gap + w);
    assert line == prefix + (gap + w);
    assert Lower(line)[..7] == Lower(prefix);
    assert HasOutputPrefix(line);
    OutputPrefixColon(line);
    assert line[7..] == gap + w + [];
    TrimOfShape(gap, w, [], IsSpace);
    assert DropOutputPrefix(line) == w;
    TrimOfKept(w, IsDoubleQuote);
    TrimOfKept(w, IsSingleQuote);
  }

  /** A reply that is just the word, without the `output:` prefix, cleans up to the word. */
  lemma CleanReplyOfPlainAnswer(lead: string, w: string, tail: string)
    requires AllDropped(lead, IsSpace)
    requires IsCleanWord(w) && !HasOutputPrefix(w)
    requires tail == [] || IsLineBreak(tail[0])
    ensures CleanReply(lead + w + tail) == Some(w)
  {
    FirstLineOfReply(lead, w, tail);
    TrimOfKept(w, IsDoubleQuote);
    TrimOfKept(w, IsSingleQuote);
  }

  /**
    A reply of blank lines, a word in double or single quotes, then nothing
    or a further line, cleans to the word without its quotes; a pair of
    quotes with nothing between them gives None.
   */
  lemma CleanReplyOfQuotedAnswer(lead: string, q: char, w: string, tail: string)
    requires AllDropped(lead, IsSpace)
    requires IsQuote(q)
    requires EndsKept(w, IsDoubleQuote) && EndsKept(w, IsSingleQuote) && NoLineBreak(w)
    requires tail == [] || IsLineBreak(tail[0])
    ensures CleanReply(lead + ([q] + w + [q]) + tail) == if w == [] then None else Some(w)
  {
    var line := [q] + w + [q];
    QuotedLine(q, w);
    FirstLineOfReply(lead, line, tail);
  }

  /** A quoted word is one stripped line without the prefix; cleaning it drops the quotes. */
  lemma QuotedLine(q: char, w: string)
    requires IsQuote(q)
    requires EndsKept(w, IsDoubleQuote) && EndsKept(w, IsSingleQuote) && NoLineBreak(w)
    ensures var line := [q] + w + [q];
      && line != [] && EndsKept(line, IsSpace) && NoLineBreak(line)
      && !HasOutputPrefix(line) && StripQuotes(DropOutputPrefix(line)) == w
  {
    var line := [q] + w + [q];
    forall i | 0 <= i < |line| ensures !IsLineBreak(line[i]) {
      if 0 < i < |line| - 1 { assert line[i] == w[i - 1]; }
    }
    assert Lower(line)[0] == q;
    StripQuotesOfQuoted(w, q);
  }

  /**
    The whole translation on a well-shaped answer: for a non-blank word, a
    reply of blank lines, `output:` in any case, spaces, a clean word and
    nothing or a further line gives exactly that word.
   */
  lemma TranslateOfPrefixedAnswer(text: string, lead: string, prefix: string, gap: string, w: string, tail: string)
    requires Strip(text) != []
    requires AllDropped(lead, IsSpace)
    requires Lower(prefix) == "output:"
    requires AllDropped(gap, IsSpace) && NoLineBreak(gap)
    requires IsCleanWord(w)
    requires tail == [] || IsLineBreak(tail[0])
    ensures TranslateEnToHe(text, Answered(lead + prefix + gap + w + tail)) == Some(w)
  {
    CleanReplyOfPrefixedAnswer(lead, prefix, gap, w, tail);
  }
}

=== FILE: word_store.dfy ===
/**
  The saved-word list of `data/words.json` and the save step of the importer
  (scripts/word_importer.py, `main`): the new entry replaces every entry with
  the same id and goes to the end of the list.
 */
module WordStore {
  import opened Wrappers
  import opened Text
  import opened Slug
  import opened Tags

  datatype WordEntry = WordEntry(
    id: string,
    english: string,
    hebrew: string,
    audio: string,
    image: string,
    distractorWordIds: seq<string>,
    tags: seq<string>,
    difficulty: int,
    firstLetterOptional: bool)

  /** `[word for word in words if word["id"] != id]` */
  function RemoveId(words: seq<WordEntry>, id: string): (r: seq<WordEntry>)
    ensures |r| <= |words|
    ensures forall i :: 0 <= i < |r| ==> r[i].id != id
    ensures forall w :: w in r <==> w in words && w.id != id
  {
    if words == [] then []
    else (if words[0].id != id then [words[0]] else []) + RemoveId(words[1..], id)
  }

  /** Lines 620-621: drop every entry with the entry's id, then append the entry. */
  function Upsert(words: seq<WordEntry>, entry: WordEntry): (r: seq<WordEntry>)
    ensures |r| >= 1 && r[|r| - 1] == entry
    ensures forall i :: 0 <= i < |r| - 1 ==> r[i].id != entry.id
    ensures forall w :: w in words && w.id != entry.id ==> w in r
    ensures forall w :: w in r ==> w == entry || (w in words && w.id != entry.id)
  {
    RemoveId(words, entry.id) + [entry]
  }

  /** Number of entries carrying `id`. */
  function CountId(words: seq<WordEntry>, id: string): nat {
    if words == [] then 0
    else (if words[0].id == id then 1 else 0) + CountId(words[1..], id)
  }

  predicate UniqueIds(words: seq<WordEntry>) {
    forall i, j :: 0 <= i < j < |words| ==> words[i].id != words[j].id
  }

  /** Removing by id keeps the other entries in their original relative order. */
  lemma {:induction false} RemoveIdConcat(a: seq<WordEntry>, b: seq<WordEntry>, id: string)
    ensures RemoveId(a + b, id) == RemoveId(a, id) + RemoveId(b, id)
    decreases |a|
  {
    if a == [] {
      assert a + b == b;
    } else {
      assert (a + b)[0] == a[0];
      assert (a + b)[1..] == a[1..] + b;
      RemoveIdConcat(a[1..], b, id);
    }
  }

  lemma {:induction false} CountIdConcat(a: seq<WordEntry>, b: seq<WordEntry>, id: string)
    ensures CountId(a + b, id) == CountId(a, id) + CountId(b, id)
    decreases |a|
  {
    if a == [] {
      assert a + b == b;
    } else {
      assert (a + b)[0] == a[0];
      assert (a + b)[1..] == a[1..] + b;
      CountIdConcat(a[1..], b, id);
    }
  }

  lemma {:induction false} RemoveIdCounts(words: seq<WordEntry>, id: string)
    ensures CountId(RemoveId(words, id), id) == 0
    ensures |RemoveId(words, id)| == |words| - CountId(words, id)
    decreases |words|
  {
    if words != [] {
      RemoveIdCounts(words[1..], id);
      var head := if words[0].id != id then [words[0]] else [];
      CountIdConcat(head, RemoveId(words[1..], id), id);
    }
  }

  /**
    After the upsert exactly one entry has the id, the list loses every older
    entry with that id and gains one.
   */
  lemma UpsertCounts(words: seq<WordEntry>, entry: WordEntry)
    ensures CountId(Upsert(words, entry), entry.id) == 1
    ensures |Upsert(words, entry)| == |words| - CountId(words, entry.id) + 1
  {
    RemoveIdCounts(words, entry.id);
    CountIdConcat(RemoveId(words, entry.id), [entry], entry.id);
  }

  /** The entries before the new one are the old list minus its id, order kept. */
  lemma UpsertKeepsOrder(a: seq<WordEntry>, b: seq<WordEntry>, entry: WordEntry)
    ensures Upsert(a + b, entry) == RemoveId(a, entry.id) + RemoveId(b, entry.id) + [entry]
  {
    RemoveIdConcat(a, b, entry.id);
  }

  lemma {:induction false} RemoveIdUnique(words: seq<WordEntry>, id: string)
    requires UniqueIds(words)
    ensures UniqueIds(RemoveId(words, id))
    decreases |words|
  {
    if words != [] {
      RemoveIdUnique(words[1..], id);
      if words[0].id != id {
        HeadIdNotInRest(words, id);
        ConsUnique(words[0], RemoveId(words[1..], id));
      }
    }
  }

  /** In a list with unique ids, no later entry that survives the removal shares the first entry's id. */
  lemma HeadIdNotInRest(words: seq<WordEntry>, id: string)
    requires words != [] && UniqueIds(words)
    ensures forall w :: w in RemoveId(words[1..], id) ==> w.id != words[0].id
  {
    forall w | w in RemoveId(words[1..], id) ensures w.id != words[0].id {
      TailMember(words, w);
    }
  }

  lemma TailMember(words: seq<WordEntry>, w: WordEntry)
    requires words != [] && UniqueIds(words) && w in words[1..]
    ensures w.id != words[0].id
  {
    var k :| 0 <= k < |words[1..]| && words[1..][k] == w;
    assert words[k + 1] == w;
  }

  /** Putting an entry with a fresh id in front of a list with unique ids keeps them unique. */
  lemma ConsUnique(x: WordEntry, rest: seq<WordEntry>)
    requires UniqueIds(rest)
    requires forall w :: w in rest ==> w.id != x.id
    ensures UniqueIds([x] + rest)
  {
    var r := [x] + rest;
    forall i, j | 0 <= i < j < |r| ensures r[i].id != r[j].id {
      if i == 0 {
        assert r[j] == rest[j - 1];
        assert rest[j - 1] in rest;
      } else {
        assert r[i] == rest[i - 1] && r[j] == rest[j - 1];
      }
    }
  }

  /** The upsert keeps ids unique: word ids stay keys of the word list. */
  lemma UpsertKeepsUniqueIds(words: seq<WordEntry>, entry: WordEntry)
    requires UniqueIds(words)
    ensures UniqueIds(Upsert(words, entry))
  {
    RemoveIdUnique(words, entry.id);
  }

  lemma {:induction false} RemoveIdAbsent(words: seq<WordEntry>, id: string)
    requires forall i :: 0 <= i < |words| ==> words[i].id != id
    ensures RemoveId(words, id) == words
    decreases |words|
  {
    if words != [] {
      RemoveIdAbsent(words[1..], id);
    }
  }

  /** Saving the same entry twice leaves the list as saving it once. */
  lemma UpsertIdempotent(words: seq<WordEntry>, entry: WordEntry)
    ensures Upsert(Upsert(words, entry), entry) == Upsert(words, entry)
  {
    var once := Upsert(words, entry);
    var kept := RemoveId(words, entry.id);
    assert once == kept + [entry];
    RemoveIdConcat(kept, [entry], entry.id);
    RemoveIdAbsent(kept, entry.id);
  }

  /** What the form holds when "Save word" is pressed. */
  datatype WordForm = WordForm(
    english: string,
    hebrew: string,
    tagsRaw: string,
    audioPath: string,
    distractorIds: seq<string>,
    difficulty: int,
    firstLetterOptional: bool)

  datatype SaveError = InvalidWordId

  /** The saved entry's image path, `assets/images/<id>.png`. */
  function ImagePath(id: string): string {
    "assets/images/" + id + ".png"
  }

  /**
    The save step: refuse when no id can be derived from the English word,
    otherwise build the entry and upsert it.
   */
  function SaveWord(words: seq<WordEntry>, form: WordForm): (r: Result<seq<WordEntry>, SaveError>)
    ensures r.Failure? <==> Slugify(form.english) == []
    ensures r.Success? ==> |r.value| >= 1 && r.value[|r.value| - 1] == NewEntry(Slugify(form.english), form)
    ensures r.Success? ==> forall i :: 0 <= i < |r.value| - 1 ==> r.value[i].id != Slugify(form.english)
    ensures r.Success? ==> forall w :: w in words && w.id != Slugify(form.english) ==> w in r.value
  {
    var id := Slugify(form.english);
    if id == [] then Failure(InvalidWordId)
    else Success(Upsert(words, NewEntry(id, form)))
  }

  /** Lines 608-618: the entry stored for a word with id `id`. */
  function NewEntry(id: string, form: WordForm): (e: WordEntry)
    ensures e.id == id && e.image == ImagePath(id)
    ensures e.english == Strip(form.english) && e.hebrew == Strip(form.hebrew)
    ensures EndsKept(e.english, IsSpace) && EndsKept(e.hebrew, IsSpace)
    ensures e.tags == ParseTags(form.tagsRaw)
    ensures forall i :: 0 <= i < |e.tags| ==> IsTag(e.tags[i])
    ensures e.audio == form.audioPath && e.distractorWordIds == form.distractorIds
    ensures e.difficulty == form.difficulty && e.firstLetterOptional == form.firstLetterOptional
  {
    WordEntry(
      id, Strip(form.english), Strip(form.hebrew), form.audioPath, ImagePath(id),
      form.distractorIds, ParseTags(form.tagsRaw), form.difficulty, form.firstLetterOptional)
  }

  /**
    A successful save keeps the ids unique and stores a well-formed entry:
    its id is a slug and its tags are clean.
   */
  lemma SaveWordWellFormed(words: seq<WordEntry>, form: WordForm)
    requires UniqueIds(words)
    requires SaveWord(words, form).Success?
    ensures var saved := SaveWord(words, form).value;
      var entry := saved[|saved| - 1];
      && UniqueIds(saved)
      && IsSlug(entry.id) && entry.id != []
      && entry.id == Slugify(entry.english)
      && forall i :: 0 <= i < |entry.tags| ==> IsTag(entry.tags[i])
  {
    var entry := NewEntry(Slugify(form.english), form);
    UpsertKeepsUniqueIds(words, entry);
    SlugifyIgnoresStrip(form.english);
  }
}

=== FILE: wrappers.dfy ===
/** Python's `None`-or-value returns and the importer's error returns. */
module Wrappers {

  datatype Option<+T> = None | Some(value: T)

  datatype Result<+R, +E> = Success(value: R) | Failure(error: E)
}
